=== FILE: README.md ===
# lime-app client orchestration, modelled in Dafny

This project models the client-side orchestration core of lime-app, the
browser console for LibreMesh routers. It covers three parts:

- **The application context provider** (`src/utils/app.context.js`). This is
  the state record, the login that installs the ubus session id, the
  bootstrap run on mount (login, then a `Promise.all` of four fetches, then one
  merge) and the setters it hands to consumers.
- **The firmware page** (`plugins/lime-plugin-firmware/src/firmwarePage.js`).
  It chooses between the confirm/revert choice and the upload form. It runs
  the upload → validate → trigger chain with its error mapping, the
  preserve-config toggle, the 180-tick countdown, and the confirm/revert latch.
- **The notes API** (`plugins/lime-plugin-notes/src/notesApi.js`). This is the
  `getNotes` guard and the `setNotes` pass-through.

Every asynchronous call is reduced to its outcome (`Ok(value)` or
`Err(fault)`), so each operation is a pure function of those outcomes. The
firmware page is a labelled transition system, `FirmwarePage.Next`. Its state
is a `Page` (the confirm page with its `reverted` flag, or the upload page
with its form and countdown). Its events are the user's clicks, the replies
to calls and the timer ticks. Its output is the next page plus the effects it
emitted: calls issued, navigation, and rejections nobody handles.

Files:

- `js.dfy`: module `Js`. JavaScript values as the code sees them: truthiness,
  property reads that throw on null/undefined, object spread, and `Number()`
  on decimal text.
- `rpc.dfy`: module `Rpc`, the request record handed to the transport.
- `app_context.dfy`: module `AppContext`.
- `firmware_page.dfy`: module `FirmwarePage`.
- `notes_api.dfy`: module `NotesApi`.

### Behaviour of the code worth knowing

- When the initial login fails, `loading` stays true. Only `unexpectedError`
  is set (app.context.js:67-70).
- `loading` becomes false as soon as the login succeeds, before any fetch is
  issued (app.context.js:49-51), not once the snapshot is complete.
- `communitySettings` starts as `{}`. On every failure path it stays `{}`, so
  the five defaults are not always present. They are present whenever the
  final merge runs.
- The merge reads `boardData.hostname`, `fbwStatus.lock` and
  `upgradeInfo.safe_upgrade_confirm_remaining_s`. If any of those replies
  resolved to null or undefined, the read throws. The whole merge is then
  dropped and `unexpectedError` is set.
- The upgrade chain's catch matches the rejection reason by value. An upload
  or trigger that rejects with the string `'validation'` is therefore treated
  as a validation failure (`FirmwarePage.UploadRejectedWithValidationText`).
  `firmwareIsValid` is only ever set to false. It is never set back.
- `stopSuCounter` stores -1, and -1 is truthy. A firmware page mounted
  afterwards still shows confirm/revert
  (`FirmwarePage.StoppedCounterStillConfirms`).

## Model

| member | source | states |
|---|---|---|
| AppContext.Initial | src/utils/app.context.js:27-43 | The constructed state is loading, without error, failsafe configured and not cancelled, not root, with empty settings, a null counter (falsy), null hostname and board data, and the menu enabled. |
| AppContext.DoLogin | src/utils/app.context.js:92-106 | Login is sent with the all-zero session id, as `session.login` with username, password and timeout 5000. It resolves iff the reply carries a truthy `ubus_rpc_session`. On success the session id becomes exactly that token. On rejection or transport failure it is unchanged, and a readable reply without a token is the rejection reason. |
| AppContext.LoginAsRoot | src/utils/app.context.js:110-113 | The root login resolves iff the device issued a token. Only then are `isRoot` and the session id set, and no other field changes. A failed attempt leaves the state exactly as it was. |
| AppContext.CancelFbw | src/utils/app.context.js:115-117 | Sets `fbwCanceled` and changes no other field. |
| AppContext.SetMenuEnabled | src/utils/app.context.js:119-121 | Sets `menuEnabled` to the given value and changes no other field. |
| AppContext.StopSuCounter | src/utils/app.context.js:123-125 | Sets the counter to -1 and changes no other field. |
| AppContext.JoinFetches | src/utils/app.context.js:52-90 | The join fails iff the board or upgrade-info fetch fails. A failed settings fetch contributes the default settings and a failed failsafe fetch contributes `{lock: false}`. Otherwise each value is passed on as fetched. |
| AppContext.MergeSettings | src/utils/app.context.js:62 | The merged settings hold all five default keys plus the device's keys, and nothing else. A device value wins over a default, and a default shows through where the device is silent. |
| AppContext.ApplyFetched | src/utils/app.context.js:58-66 | The merge succeeds iff the board, failsafe and upgrade values are all readable. It then changes only the five fetched fields. |
| AppContext.AfterLogin | src/utils/app.context.js:48-51 | An accepted login installs its token and clears `loading` before any fetch. A failed one only raises `unexpectedError`. |
| AppContext.BootRequests | src/utils/app.context.js:48-90 | The login is always the first call. The four fetches are issued iff the login succeeded, each with the service's current session and empty parameters. They are exactly `system.board`, `lime-utils.get_community_settings`, `lime-fbw.status` and `lime-utils.get_upgrade_info`, one each, in any order. |
| AppContext.ComponentDidMount | src/utils/app.context.js:47-71 | A failed login changes only the error flag. A failed fatal fetch, or a merge that throws, installs the session, clears `loading` and raises the error, and leaves every fetched field as it was. On the happy path the hostname, board data, merged settings, `!lock` (true when the failsafe fetch failed) and `Number(remaining)` are filled in, and nothing else changes. Mounting never touches `isRoot` or `fbwCanceled`. |
| AppContext.MountWithFailedLogin | src/utils/app.context.js:47-70 | From the constructed state, a failed login leaves `loading` true with the error set. Every fetched field stays initial and only the login call is issued. |
| AppContext.MountWithFatalFetch | src/utils/app.context.js:52-70 | A failed board or upgrade-info fetch gives `loading` false and the error set. Hostname, board data, settings, failsafe flag and counter keep their initial values. |
| AppContext.MountAllSucceed | src/utils/app.context.js:58-66 | With every fetch answered, the state is not loading and has no error. The hostname comes from the board data, and the settings hold every default key. |
| AppContext.SettingsFallbackIsDefaults | src/utils/app.context.js:78-81 | A failed settings fetch yields exactly the default settings. |
| AppContext.FbwFallbackIsConfigured | src/utils/app.context.js:83-86 | A failed failsafe-status fetch yields `fbwConfigured = true`. |
| AppContext.SuCounterFromDecimalText | src/utils/app.context.js:64 | A remaining-seconds field reported as the decimal text of n gives a counter of exactly n, whatever other fields the reply carries. |
| AppContext.ApplyKeepsLatches | src/utils/app.context.js:110-125 | No single action lowers `isRoot` or `fbwCanceled`. Only an accepted root login raises `isRoot`. |
| AppContext.RunKeepsLatches | src/utils/app.context.js:110-125 | Over any sequence of mounts, root logins and setters, `isRoot` and `fbwCanceled` are never reset. If `isRoot` became true, the sequence contains a root login the device accepted. |
| Js.ToNumber | src/utils/app.context.js:64 | `Number()` always yields a number or NaN. It keeps numbers, and gives NaN for undefined and for objects. |
| Js.ParseNumber | src/utils/app.context.js:64 | `Number()` of a string always yields a number or NaN. |
| Js.NumberOfDecimalText | src/utils/app.context.js:64 | Decimal text round-trips: `Number(String(n)) == n` for every integer n. |
| FirmwarePage.SelectBranch | plugins/lime-plugin-firmware/src/firmwarePage.js:234-242 | A numeric counter selects confirm/revert iff it is nonzero, so -1 selects it. Null, NaN and undefined select the upload form. |
| FirmwarePage.RollbackAdvisory | plugins/lime-plugin-firmware/src/firmwarePage.js:143-152 | The positive note shows iff the answer is the boolean true and the warning iff it is the boolean false. Any non-boolean answer, truthy or not, shows no note. |
| FirmwarePage.Enter | plugins/lime-plugin-firmware/src/firmwarePage.js:185-241 | A truthy counter mounts the unreverted confirm page and issues nothing. Otherwise the initial form is mounted (preserve-config false, countdown at 0) and one rollback-availability check is issued. |
| FirmwarePage.TogglePreserve | plugins/lime-plugin-firmware/src/firmwarePage.js:204-206 | Toggling flips `preserveConfig` and changes nothing else in the form. |
| FirmwarePage.ValidateFirmware | plugins/lime-plugin-firmware/src/firmwarePage.js:199-202 | Validation resolves iff the device call resolves. Every rejection becomes the string 'validation'. |
| FirmwarePage.UploadChain | plugins/lime-plugin-firmware/src/firmwarePage.js:208-213 | The calls issued are a non-empty prefix of upload, validate, trigger(preserveConfig), so the upload is always issued first. Validation is issued iff the upload resolved, and the trigger iff validation resolved too. The chain resolves iff all three resolve, and otherwise carries the first failing step's reason (validation's being 'validation'). |
| FirmwarePage.OnUpgrade | plugins/lime-plugin-firmware/src/firmwarePage.js:208-224 | Without a file, a TypeError is thrown before any call. `submitSuccess` becomes true iff upload, validation and trigger all resolve. When all three resolve, exactly those three calls are issued, nothing is thrown and only `fileName` and `submitSuccess` change. A validation rejection sets `firmwareIsValid = false` and issues no trigger. Any other upload or trigger failure is rethrown with both flags unchanged. The trigger carries the form's current `preserveConfig`, and `firmwareIsValid` never becomes anything but false. |
| FirmwarePage.EnterEstablishesInv | plugins/lime-plugin-firmware/src/firmwarePage.js:187-190 | Every freshly mounted page satisfies the page invariant. |
| FirmwarePage.NextPreservesInv | plugins/lime-plugin-firmware/src/firmwarePage.js:93-224 | Every event preserves the invariant: the countdown has not started before a successful submission, and `firmwareIsValid` is undefined or false. |
| FirmwarePage.RunPreservesInv | plugins/lime-plugin-firmware/src/firmwarePage.js:93-224 | The invariant holds after any sequence of events. |
| FirmwarePage.Countdown | plugins/lime-plugin-firmware/src/firmwarePage.js:93-109 | The countdown starts at 0 and each tick adds 1. After n ticks the page shows progress with 180 - n left while n < 180, and shows success from n = 180 on. |
| FirmwarePage.TickAdvancesProgress | plugins/lime-plugin-firmware/src/firmwarePage.js:79-108 | While progress shows, the remaining time is positive and each tick lowers it by exactly 1. At 1 the next tick shows success, and success stays under further ticks. |
| FirmwarePage.SubmitShowsProgress | plugins/lime-plugin-firmware/src/firmwarePage.js:214-228 | A fully successful submission immediately shows the progress view with the full 180 seconds left. |
| FirmwarePage.Next | plugins/lime-plugin-firmware/src/firmwarePage.js:45-231 | One event on the mounted page. The confirm and form branches never turn into each other, and the reverted notice is final and silent. After a successful submission nothing is issued and only the countdown moves, one second per tick; a late rollback answer is the one thing that still reaches the form. The trigger always carries the box as it stands at submission. The single arms are pinned by the lemmas below and by `ConfirmOrRevert`. |
| FirmwarePage.ToggleOnFormFlips | plugins/lime-plugin-firmware/src/firmwarePage.js:204-206 | On the form, toggling flips the box that is shown, keeps the advisory and the invalid-image note, and issues nothing. |
| FirmwarePage.RollbackCheckSetsAdvisory | plugins/lime-plugin-firmware/src/firmwarePage.js:194-197 | The rollback check's answer is stored unchanged and decides the advisory the form shows, with no effect. A failed check changes nothing and is left unhandled. |
| FirmwarePage.RejectedValidationShowsInvalidImage | plugins/lime-plugin-firmware/src/firmwarePage.js:176-218 | A rejected validation shows the form again with the invalid-image note. Exactly the upload and the validation are issued, and no trigger. |
| FirmwarePage.OtherFailureIsRethrown | plugins/lime-plugin-firmware/src/firmwarePage.js:209-221 | Without a file, a TypeError is surfaced and the page is unchanged. An upload or trigger failure other than 'validation' leaves the shown form as it was, and the failure is surfaced unhandled after the calls issued so far. |
| FirmwarePage.ToggleTwice | plugins/lime-plugin-firmware/src/firmwarePage.js:204-206 | Toggling preserve-config twice restores the page. |
| FirmwarePage.RevertLatches | plugins/lime-plugin-firmware/src/firmwarePage.js:45-64 | Once reverted, no sequence of events leaves the reverted page. |
| FirmwarePage.InvalidImageLatches | plugins/lime-plugin-firmware/src/firmwarePage.js:215-219 | Once an image is flagged invalid, the flag stays false across any later events. |
| FirmwarePage.ConfirmOrRevert | plugins/lime-plugin-firmware/src/firmwarePage.js:49-57 | Confirming emits the navigation to `/` iff the device accepted, and leaves the page unreverted. Reverting shows the reverted notice iff the device accepted. |
| FirmwarePage.UploadRejectedWithValidationText | plugins/lime-plugin-firmware/src/firmwarePage.js:211-222 | An upload rejected with the string 'validation' flags the image invalid although validation was never issued. A trigger rejected with 'validation' after upload and validation resolved also flags the image invalid, issues exactly the three calls, throws nothing and leaves `submitSuccess` unchanged. |
| FirmwarePage.StoppedCounterStillConfirms | plugins/lime-plugin-firmware/src/firmwarePage.js:235-239 | After `stopSuCounter`, the page still mounts the confirm/revert choice, because -1 is truthy. |
| FirmwarePage.PendingSafeUpgradeAfterBoot | plugins/lime-plugin-firmware/src/firmwarePage.js:235-241 | A bootstrap reporting a nonzero remaining time as text (with any other fields in the reply) mounts confirm/revert, and an accepted revert then shows the reverted notice. |
| FirmwarePage.FormBeforeBoot | plugins/lime-plugin-firmware/src/firmwarePage.js:235-241 | With the constructed (null) counter, the page mounts the upload form with no advisory, no invalid-image note and preserve-config off. |
| NotesApi.GetNotes | plugins/lime-plugin-notes/src/notesApi.js:3-10 | Exactly one call is issued, `lime-utils.get_notes` with empty params and the given session. It resolves iff the reply has a defined `notes`, and then returns the reply unchanged. A readable reply without notes fails with `{error: true}`. Transport failures pass through, and a null or undefined reply fails with a TypeError. |
| NotesApi.SetNotes | plugins/lime-plugin-notes/src/notesApi.js:12 | Issues `lime-utils.set_notes` with the given session and the notes unmodified as params, and returns the reply as it is. |

## Left out

- Rendering: JSX, CSS classes and I18n strings are not modelled. Only the selected view (`FirmwarePage.View`) is.
- Preact hooks, `setInterval`/`clearInterval` and effect cleanup are not modelled. The countdown is a sequence of discrete `Tick` events, and the interval never stops on its own, so ticks past 180 keep the success view.
- The rxjs Observable/`toPromise` plumbing and the uhttpd transport are not modelled. Each call is an outcome supplied from outside. `uhttpd.service.js` and `firmwareApi.js` are not part of this model, so a call with `Rpc.Current` is assumed to carry the service's session at call time.
- `Promise.all` concurrency is modelled as a join of four outcomes. Which failing fetch provides the rejection reason is not modelled, because the catch discards it.
- Interleavings are not modelled. This covers user actions that arrive while the bootstrap is in flight, and clicks that overlap a pending call. Every event is applied with its outcome already settled. `FirmwarePage.Enter` selects the branch once, at mount. The source re-evaluates `if (suCounter)` on every render. So a mounted form page is replaced by confirm/revert, losing its form state, when the bootstrap merge lands after `loading` went false, or when `stopSuCounter` turns a falsy counter into -1. The model does not show that re-selection.
- The progress percentage (firmwarePage.js:81) and the file-size text built with `toFixed` (firmwarePage.js:133) are not modelled. Neither is the filename/filesize display state of `UpgradeForm`, because these are floating point and display only.
- `route('/')` is recorded as a `Navigate` effect and is not performed. `console.error` is not modelled.
- `throw new Error(error)` wraps the reason in an Error object. The model records the original fault as unhandled.
- `useAppContext`'s provider-missing check (app.context.js:136-142) is framework wiring and is not modelled.
- JavaScript values: arrays, functions, prototypes, floating-point numbers and Infinity are not modelled. A property read on a primitive yields undefined, which is exact for the property names this code reads.
- Spreading a string into the settings (which would copy its characters under index keys) is not modelled. Every non-object reply contributes no keys.
- Js.ParseNumber: states only that the result is a number or NaN. Leading and trailing whitespace, fractions, exponents, hexadecimal and `Infinity` forms parse to NaN in the model, whereas JavaScript gives a number. Only plain, optionally signed decimal integers (and the empty string, 0) are exact, and `Js.NumberOfDecimalText` states the round trip for those.

=== FILE: app_context.dfy ===
/** The application context provider: the process-wide state record, the
    login that sets the session id of the shared ubus service, the bootstrap
    run on mount (login, then a join of four fetches, then one merge), and
    the setters handed to consumers. Every asynchronous step is reduced to
    its outcome, so each operation is a pure function of those outcomes. */
module AppContext {
  import opened Js
  import opened Rpc

  /** The session id sent with the login call, before any session exists. */
  const UnauthSessionId: string := "00000000000000000000000000000000"
  /** The login timeout passed to the device, in milliseconds. */
  const DefaultTimeout: int := 5000

  const DefaultCommunitySettings: map<string, Value> := map[
    "bad_signal" := Str("-82"),
    "acceptable_loss" := Str("20"),
    "bad_bandwidth" := Str("1"),
    "good_signal" := Str("-65"),
    "good_bandwidth" := Str("5")
  ]

  /** What a failed failsafe-status fetch resolves to instead. */
  const FbwStatusFallback: Value := Obj(map["lock" := Bool(false)])

  /** The provider's state. `sid` is the session id held by the shared
      uhttpd service, which every call without an explicit session uses. */
  datatype AppState = AppState(
    sid: Value,
    nodeHostname: Value,
    boardData: Value,
    loading: bool,
    unexpectedError: bool,
    fbwConfigured: bool,
    fbwCanceled: bool,
    isRoot: bool,
    communitySettings: map<string, Value>,
    suCounter: Value,
    menuEnabled: bool)

  /** The fields of the state, to say which ones an operation may change. */
  datatype Field =
    | Sid | NodeHostname | BoardData | Loading | UnexpectedError
    | FbwConfigured | FbwCanceled | IsRoot | CommunitySettings | SuCounter | MenuEnabled

  /** `a` and `b` agree on every field outside `changed`. */
  predicate SameExcept(a: AppState, b: AppState, changed: set<Field>) {
    && (Sid !in changed ==> a.sid == b.sid)
    && (NodeHostname !in changed ==> a.nodeHostname == b.nodeHostname)
    && (BoardData !in changed ==> a.boardData == b.boardData)
    && (Loading !in changed ==> a.loading == b.loading)
    && (UnexpectedError !in changed ==> a.unexpectedError == b.unexpectedError)
    && (FbwConfigured !in changed ==> a.fbwConfigured == b.fbwConfigured)
    && (FbwCanceled !in changed ==> a.fbwCanceled == b.fbwCanceled)
    && (IsRoot !in changed ==> a.isRoot == b.isRoot)
    && (CommunitySettings !in changed ==> a.communitySettings == b.communitySettings)
    && (SuCounter !in changed ==> a.suCounter == b.suCounter)
    && (MenuEnabled !in changed ==> a.menuEnabled == b.menuEnabled)
  }

  /** The state the provider is constructed with; `sid` is whatever the
      shared service holds at that time. */
  function Initial(sid: Value): (s: AppState)
    ensures s.sid == sid
    ensures s.loading && !s.unexpectedError
    ensures s.fbwConfigured && !s.fbwCanceled && !s.isRoot && s.menuEnabled
    ensures s.communitySettings == map[]
    ensures s.nodeHostname == Null && s.boardData == Null
    ensures s.suCounter == Null && !Truthy(s.suCounter)
  {
    AppState(sid, Null, Null, true, false, true, false, false, map[], Null, true)
  }

  // ----- login -----

  /** The device accepted the credentials: its reply carries a truthy
      `ubus_rpc_session`. */
  predicate HasSessionToken(response: Value) {
    response.Obj? && "ubus_rpc_session" in response.fields
    && Truthy(response.fields["ubus_rpc_session"])
  }

  function LoginRequest(username: string, password: Value): Request {
    Request(Explicit(Str(UnauthSessionId)), "session", "login",
      Obj(map["username" := Str(username), "password" := password, "timeout" := Num(DefaultTimeout)]))
  }

  /** A login attempt: the request sent, the session id afterwards, and how
      the returned promise settles. */
  datatype Login = Login(request: Request, sid: Value, outcome: Outcome<Value>)

  /** `_login(username, password)` against the transport's `reply`. */
  function DoLogin(sid: Value, username: string, password: Value, reply: Outcome<Value>): (r: Login)
    ensures r.request.session == Explicit(Str(UnauthSessionId))
    ensures r.request.service == "session" && r.request.procedure == "login"
    ensures r.request.params == Obj(map["username" := Str(username), "password" := password, "timeout" := Num(5000)])
    ensures r.outcome.Ok? <==> reply.Ok? && HasSessionToken(reply.value)
    ensures r.outcome.Ok? ==> r.outcome == reply && r.sid == reply.value.fields["ubus_rpc_session"]
    ensures r.outcome.Err? ==> r.sid == sid
    ensures reply.Ok? && Readable(reply.value) && r.outcome.Err? ==> r.outcome == Err(Thrown(reply.value))
  {
    var request := LoginRequest(username, password);
    match reply
    case Err(f) => Login(request, sid, Err(f))
    case Ok(response) =>
      match Get(response, "ubus_rpc_session")
      case Err(f) => Login(request, sid, Err(f))
      case Ok(token) =>
        if Truthy(token) then Login(request, token, Ok(response))
        else Login(request, sid, Err(Thrown(response)))
  }

  /** The result of a user action that issues a call. */
  datatype Reply = Reply(state: AppState, request: Request, outcome: Outcome<Value>)

  /** `loginAsRoot(password)`: a login as root that, once it succeeds, marks
      the state as root. A failed attempt changes nothing. */
  function LoginAsRoot(s: AppState, password: Value, reply: Outcome<Value>): (r: Reply)
    ensures r.request == LoginRequest("root", password)
    ensures r.outcome.Ok? <==> reply.Ok? && HasSessionToken(reply.value)
    ensures r.outcome.Ok? ==>
      && r.state.isRoot
      && r.state.sid == reply.value.fields["ubus_rpc_session"]
      && SameExcept(s, r.state, {IsRoot, Sid})
    ensures r.outcome.Err? ==> r.state == s
  {
    var login := DoLogin(s.sid, "root", password, reply);
    match login.outcome
    case Err(f) => Reply(s, login.request, Err(f))
    case Ok(_) => Reply(s.(sid := login.sid, isRoot := true), login.request, Ok(Undefined))
  }

  // ----- setters -----

  function CancelFbw(s: AppState): (r: AppState)
    ensures r.fbwCanceled
    ensures SameExcept(s, r, {FbwCanceled})
  {
    s.(fbwCanceled := true)
  }

  function SetMenuEnabled(s: AppState, value: bool): (r: AppState)
    ensures r.menuEnabled == value
    ensures SameExcept(s, r, {MenuEnabled})
  {
    s.(menuEnabled := value)
  }

  function StopSuCounter(s: AppState): (r: AppState)
    ensures r.suCounter == Num(-1)
    ensures SameExcept(s, r, {SuCounter})
  {
    s.(suCounter := Num(-1))
  }

  // ----- bootstrap -----

  /** `_fetchCommunitySettings`: a failed fetch resolves to the defaults. */
  function FetchCommunitySettings(reply: Outcome<Value>): Value {
    match reply
    case Ok(v) => v
    case Err(_) => Obj(DefaultCommunitySettings)
  }

  /** `_fetchFBWStatus`: a failed fetch resolves to "not locked". */
  function FetchFbwStatus(reply: Outcome<Value>): Value {
    match reply
    case Ok(v) => v
    case Err(_) => FbwStatusFallback
  }

  /** The four values the join resolves to, in the order they were listed. */
  datatype Fetched = Fetched(board: Value, settings: Value, fbwStatus: Value, upgradeInfo: Value)

  /** The `Promise.all` join of the board, settings, failsafe and upgrade-info
      fetches, the settings and failsafe fetches having their fallbacks. The
      rejection reason is discarded by the caller, so which failing fetch
      supplies it is immaterial. */
  function JoinFetches(board: Outcome<Value>, settings: Outcome<Value>, fbw: Outcome<Value>, upgrade: Outcome<Value>): (r: Outcome<Fetched>)
    ensures r.Ok? <==> board.Ok? && upgrade.Ok?
    ensures r.Ok? ==> r.value.board == board.value && r.value.upgradeInfo == upgrade.value
    ensures r.Ok? && settings.Ok? ==> r.value.settings == settings.value
    ensures r.Ok? && settings.Err? ==> r.value.settings == Obj(DefaultCommunitySettings)
    ensures r.Ok? && fbw.Ok? ==> r.value.fbwStatus == fbw.value
    ensures r.Ok? && fbw.Err? ==> r.value.fbwStatus == FbwStatusFallback
  {
    var b :- board;
    var u :- upgrade;
    Ok(Fetched(b, FetchCommunitySettings(settings), FetchFbwStatus(fbw), u))
  }

  /** `{ ...DEFAULT_COMMUNITY_SETTINGS, ...device }`: every default key is
      present, the device's keys win, and nothing else appears. */
  function MergeSettings(device: Value): (m: map<string, Value>)
    ensures DefaultCommunitySettings.Keys <= m.Keys
    ensures m.Keys == DefaultCommunitySettings.Keys + Spread(device).Keys
    ensures forall k | k in Spread(device) :: m[k] == Spread(device)[k]
    ensures forall k | k in DefaultCommunitySettings && k !in Spread(device) :: m[k] == DefaultCommunitySettings[k]
  {
    DefaultCommunitySettings + Spread(device)
  }

  /** The final `setState` of the bootstrap. Building its argument reads
      `hostname`, `lock` and `safe_upgrade_confirm_remaining_s`, and any of
      those reads throws when the value read from is null or undefined, in
      which case nothing is set. */
  function ApplyFetched(s: AppState, f: Fetched): (r: Outcome<AppState>)
    ensures r.Ok? <==> Readable(f.board) && Readable(f.fbwStatus) && Readable(f.upgradeInfo)
    ensures r.Ok? ==> SameExcept(s, r.value, {NodeHostname, BoardData, CommunitySettings, FbwConfigured, SuCounter})
  {
    var hostname :- Get(f.board, "hostname");
    var lock :- Get(f.fbwStatus, "lock");
    var remaining :- Get(f.upgradeInfo, "safe_upgrade_confirm_remaining_s");
    Ok(s.(nodeHostname := hostname,
          boardData := f.board,
          communitySettings := MergeSettings(f.settings),
          fbwConfigured := !Truthy(lock),
          suCounter := ToNumber(remaining)))
  }


  /** Every fetch the merge reads from resolved to something readable. */
  predicate FetchesUsable(board: Outcome<Value>, fbw: Outcome<Value>, upgrade: Outcome<Value>) {
    && board.Ok? && Readable(board.value)
    && upgrade.Ok? && Readable(upgrade.value)
    && (fbw.Ok? ==> Readable(fbw.value))
  }

  /** The transport reply to a login that `_login` resolves on. */
  predicate LoginAccepted(reply: Outcome<Value>) {
    reply.Ok? && HasSessionToken(reply.value)
  }

  /** The state right after login: `loading` is cleared as soon as the login
      succeeds, before any fetch is issued. */
  function AfterLogin(s: AppState, login: Outcome<Value>): (r: AppState)
    ensures LoginAccepted(login) ==>
      r == s.(sid := login.value.fields["ubus_rpc_session"], loading := false)
    ensures !(LoginAccepted(login)) ==> r == s.(unexpectedError := true)
  {
    var l := DoLogin(s.sid, "lime-app", Str("generic"), login);
    if l.outcome.Err? then s.(unexpectedError := true)
    else s.(sid := l.sid, loading := false)
  }

  /** The calls the bootstrap issues: the login, and the four fetches only
      once the login has succeeded, each with the service's current session. */
  function BootRequests(s: AppState, login: Outcome<Value>): (q: seq<Request>)
    ensures |q| >= 1 && q[0] == LoginRequest("lime-app", Str("generic"))
    ensures |q| == 5 <==> LoginAccepted(login)
    ensures |q| == 1 || |q| == 5
    ensures forall i | 1 <= i < |q| :: q[i].session == Current && q[i].params == Obj(map[])
    // the four fetches, one each, whatever the order
    ensures |q| == 5 ==>
      multiset{(q[1].service, q[1].procedure), (q[2].service, q[2].procedure),
               (q[3].service, q[3].procedure), (q[4].service, q[4].procedure)}
      == multiset{("system", "board"), ("lime-utils", "get_community_settings"),
                  ("lime-fbw", "status"), ("lime-utils", "get_upgrade_info")}
  {
    var l := DoLogin(s.sid, "lime-app", Str("generic"), login);
    [l.request] +
    if l.outcome.Err? then []
    else [Request(Current, "system", "board", Obj(map[])),
          Request(Current, "lime-utils", "get_community_settings", Obj(map[])),
          Request(Current, "lime-fbw", "status", Obj(map[])),
          Request(Current, "lime-utils", "get_upgrade_info", Obj(map[]))]
  }

  /** `componentDidMount`: login, clear `loading`, join the four fetches,
      merge; any failure on the way sets `unexpectedError` and nothing else. */
  function ComponentDidMount(s: AppState, login: Outcome<Value>, board: Outcome<Value>,
                             settings: Outcome<Value>, fbw: Outcome<Value>, upgrade: Outcome<Value>): (r: AppState)
    // a failed login sets the error flag only, and `loading` stays as it was
    ensures !(LoginAccepted(login)) ==> r == s.(unexpectedError := true)
    // a failed board or upgrade-info fetch keeps every fetched field as it was
    ensures LoginAccepted(login) && !FetchesUsable(board, fbw, upgrade) ==>
      r == s.(sid := login.value.fields["ubus_rpc_session"], loading := false, unexpectedError := true)
    // the happy path fills the fetched fields from the replies
    ensures LoginAccepted(login) && FetchesUsable(board, fbw, upgrade) ==>
      && !r.loading
      && r.unexpectedError == s.unexpectedError
      && r.sid == login.value.fields["ubus_rpc_session"]
      && r.boardData == board.value
      && r.nodeHostname == Prop(board.value, "hostname")
      && r.communitySettings == MergeSettings(if settings.Ok? then settings.value else Obj(DefaultCommunitySettings))
      && r.fbwConfigured == (fbw.Err? || !Truthy(Prop(fbw.value, "lock")))
      && r.suCounter == ToNumber(Prop(upgrade.value, "safe_upgrade_confirm_remaining_s"))
      && SameExcept(s, r, {Sid, Loading, NodeHostname, BoardData, CommunitySettings, FbwConfigured, SuCounter})
    // mounting never touches the root or failsafe-cancelled flags
    ensures r.isRoot == s.isRoot && r.fbwCanceled == s.fbwCanceled
  {
    var ready := AfterLogin(s, login);
    if !LoginAccepted(login) then ready
    else
      match JoinFetches(board, settings, fbw, upgrade)
      case Err(_) => ready.(unexpectedError := true)
      case Ok(fetched) =>
        match ApplyFetched(ready, fetched)
        case Err(_) => ready.(unexpectedError := true)
        case Ok(done) => done
  }

  // ----- bootstrap from the constructed state -----

  /** A failed login leaves the provider loading, with only the error flag
      raised and no fetched field populated. */
  lemma MountWithFailedLogin(sid0: Value, login: Outcome<Value>, board: Outcome<Value>,
                             settings: Outcome<Value>, fbw: Outcome<Value>, upgrade: Outcome<Value>)
    requires !LoginAccepted(login)
    ensures var r := ComponentDidMount(Initial(sid0), login, board, settings, fbw, upgrade);
      && r.loading && r.unexpectedError && r.sid == sid0
      && r.nodeHostname == Null && r.boardData == Null && r.communitySettings == map[]
      && r.fbwConfigured && r.suCounter == Null
      && BootRequests(Initial(sid0), login) == [LoginRequest("lime-app", Str("generic"))]
  {
  }

  /** A failed board or upgrade-info fetch stops loading and raises the error
      flag, and every fetched field keeps its initial value: in particular the
      settings stay empty rather than holding the defaults. */
  lemma MountWithFatalFetch(sid0: Value, login: Outcome<Value>, board: Outcome<Value>,
                            settings: Outcome<Value>, fbw: Outcome<Value>, upgrade: Outcome<Value>)
    requires LoginAccepted(login)
    requires board.Err? || upgrade.Err?
    ensures var r := ComponentDidMount(Initial(sid0), login, board, settings, fbw, upgrade);
      && !r.loading && r.unexpectedError
      && r.nodeHostname == Null && r.boardData == Null && r.communitySettings == map[]
      && r.fbwConfigured && r.suCounter == Null
  {
  }

  /** With every fetch answered, the snapshot is consistent: not loading, no
      error, the hostname taken from the board data. */
  lemma MountAllSucceed(sid0: Value, login: Outcome<Value>, board: Outcome<Value>,
                        settings: Outcome<Value>, fbw: Outcome<Value>, upgrade: Outcome<Value>)
    requires LoginAccepted(login)
    requires board.Ok? && board.value.Obj? && settings.Ok? && fbw.Ok? && fbw.value.Obj?
    requires upgrade.Ok? && upgrade.value.Obj?
    ensures var r := ComponentDidMount(Initial(sid0), login, board, settings, fbw, upgrade);
      && !r.loading && !r.unexpectedError
      && r.nodeHostname == Prop(board.value, "hostname")
      && r.communitySettings == MergeSettings(settings.value)
      && DefaultCommunitySettings.Keys <= r.communitySettings.Keys
  {
  }

  /** A failed settings fetch yields exactly the default settings. */
  lemma SettingsFallbackIsDefaults(s: AppState, login: Outcome<Value>, board: Outcome<Value>,
                                   settings: Outcome<Value>, fbw: Outcome<Value>, upgrade: Outcome<Value>)
    requires LoginAccepted(login) && FetchesUsable(board, fbw, upgrade)
    requires settings.Err?
    ensures ComponentDidMount(s, login, board, settings, fbw, upgrade).communitySettings == DefaultCommunitySettings
  {
  }

  /** A failed failsafe-status fetch means the failsafe counts as configured. */
  lemma FbwFallbackIsConfigured(s: AppState, login: Outcome<Value>, board: Outcome<Value>,
                                settings: Outcome<Value>, fbw: Outcome<Value>, upgrade: Outcome<Value>)
    requires LoginAccepted(login) && FetchesUsable(board, fbw, upgrade)
    requires fbw.Err?
    ensures ComponentDidMount(s, login, board, settings, fbw, upgrade).fbwConfigured
  {
  }

  /** The safe-upgrade counter reported as decimal text becomes that integer. */
  lemma SuCounterFromDecimalText(s: AppState, login: Outcome<Value>, board: Outcome<Value>,
                                 settings: Outcome<Value>, fbw: Outcome<Value>, upgrade: Outcome<Value>, n: int)
    requires LoginAccepted(login) && FetchesUsable(board, fbw, upgrade)
    requires Prop(upgrade.value, "safe_upgrade_confirm_remaining_s") == Str(FormatInt(n))
    ensures ComponentDidMount(s, login, board, settings, fbw, upgrade).suCounter == Num(n)
  {
    NumberOfDecimalText(n);
  }

  // ----- sequences of actions -----

  /** Everything that changes the provider's state. */
  datatype Action =
    | Mount(login: Outcome<Value>, board: Outcome<Value>, settings: Outcome<Value>,
            fbw: Outcome<Value>, upgrade: Outcome<Value>)
    | RootLogin(password: Value, reply: Outcome<Value>)
    | CancelFbwAction
    | SetMenu(value: bool)
    | StopCounter

  function Apply(s: AppState, a: Action): AppState {
    match a
    case Mount(login, board, settings, fbw, upgrade) => ComponentDidMount(s, login, board, settings, fbw, upgrade)
    case RootLogin(password, reply) => LoginAsRoot(s, password, reply).state
    case CancelFbwAction => CancelFbw(s)
    case SetMenu(v) => SetMenuEnabled(s, v)
    case StopCounter => StopSuCounter(s)
  }

  function Run(s: AppState, acts: seq<Action>): AppState
    decreases |acts|
  {
    if acts == [] then s else Run(Apply(s, acts[0]), acts[1..])
  }

  /** An action that raises the root flag: a root login the device accepted. */
  predicate GrantsRoot(a: Action) {
    a.RootLogin? && LoginAccepted(a.reply)
  }

  /** One action never lowers the root or failsafe-cancelled flags, and only
      an accepted root login raises the root flag. */
  lemma ApplyKeepsLatches(s: AppState, a: Action)
    ensures s.isRoot ==> Apply(s, a).isRoot
    ensures s.fbwCanceled ==> Apply(s, a).fbwCanceled
    ensures Apply(s, a).isRoot && !s.isRoot ==> GrantsRoot(a)
  {
    match a
    case Mount(login, board, settings, fbw, upgrade) =>
    case RootLogin(password, reply) =>
    case CancelFbwAction =>
    case SetMenu(v) =>
    case StopCounter =>
  }

  /** Root privileges and a cancelled failsafe are never taken back, and the
      root flag is only ever raised by an accepted root login. */
  lemma {:induction false} RunKeepsLatches(s: AppState, acts: seq<Action>)
    ensures s.isRoot ==> Run(s, acts).isRoot
    ensures s.fbwCanceled ==> Run(s, acts).fbwCanceled
    ensures Run(s, acts).isRoot && !s.isRoot ==> exists i | 0 <= i < |acts| :: GrantsRoot(acts[i])
    decreases |acts|
  {
    if acts != [] {
      var next := Apply(s, acts[0]);
      ApplyKeepsLatches(s, acts[0]);
      RunKeepsLatches(next, acts[1..]);
      assert Run(s, acts) == Run(next, acts[1..]);
      if Run(s, acts).isRoot && !s.isRoot {
        if next.isRoot {
          assert GrantsRoot(acts[0]);
        } else {
          var i :| 0 <= i < |acts[1..]| && GrantsRoot(acts[1..][i]);
          assert GrantsRoot(acts[i + 1]);
        }
      }
    }
  }
}

=== FILE: firmware_page.dfy ===
/** The firmware page as a labelled transition system. The page either offers
    confirm/revert of a pending safe upgrade, or the upload form; a submitted
    upgrade is followed by a client-side countdown of one-second ticks. Each
    remote call is reduced to its outcome and each user action or timer tick
    is an event; the output of a step is the next page plus the effects it
    emitted (calls issued, navigation, rejections nobody handles). */
module FirmwarePage {
  import opened Js
  import AppContext

  /** The nominal duration of an upgrade, in ticks of one second. */
  const TotalTime: nat := 180

  /** The reason `_validateFirmware` turns every validation failure into. */
  const ValidationRejection: Fault := Thrown(Str("validation"))

  datatype Branch = ConfirmBranch | FormBranch

  /** `FirmwarePage`: the confirm/revert choice while the safe-upgrade
      counter is truthy, the upload form otherwise. */
  function SelectBranch(suCounter: Value): (b: Branch)
    ensures suCounter.Num? ==> (b == ConfirmBranch <==> suCounter.n != 0)
    ensures suCounter.Null? || suCounter.NaN? || suCounter.Undefined? ==> b == FormBranch
  {
    if Truthy(suCounter) then ConfirmBranch else FormBranch
  }

  /** The rollback note above the upload form. */
  datatype Advisory = NoAdvisory | RollbackSupported | RollbackUnsupported

  /** Which rollback note `UpgradeForm` shows: the positive one only for the
      boolean `true`, the warning only for the boolean `false`, and none for
      any other answer, truthy or not. */
  function RollbackAdvisory(available: Value): (a: Advisory)
    ensures a == RollbackSupported <==> available == Bool(true)
    ensures a == RollbackUnsupported <==> available == Bool(false)
    ensures !available.Bool? ==> a == NoAdvisory
  {
    match available
    case Bool(b) => if b then RollbackSupported else RollbackUnsupported
    case _ => NoAdvisory
  }

  /** The state of `_UpgradeForm`. */
  datatype Form = Form(
    upgradeConfirmAvailable: Value,
    firmwareIsValid: Value,
    submitSuccess: bool,
    preserveConfig: bool,
    fileName: Value)

  const InitialForm: Form := Form(Undefined, Undefined, false, false, Str(""))

  /** The mounted page. `elapsed` is the countdown of `_UpgradeSubmitted`,
      which is mounted (at 0) once the submission has succeeded. */
  datatype Page =
    | ConfirmPage(reverted: bool)
    | UpgradePage(form: Form, elapsed: nat)

  /** The firmware calls the page issues. */
  datatype Call =
    | CheckRollback
    | Upload(file: Value)
    | Validate
    | Trigger(preserveConfig: bool)
    | ConfirmUpgrade
    | RevertUpgrade

  datatype Effect =
    | Issue(call: Call)
    | Navigate(path: string)
    | Unhandled(fault: Fault)

  datatype Step = Step(page: Page, effects: seq<Effect>)

  /** What the user sees. */
  datatype View =
    | ConfirmChoice
    | RevertedNotice
    | UploadForm(advisory: Advisory, invalidImage: bool, preserveConfig: bool)
    | Progress(remaining: int)
    | Success(preserveConfig: bool)

  function Render(p: Page): View {
    match p
    case ConfirmPage(reverted) => if reverted then RevertedNotice else ConfirmChoice
    case UpgradePage(f, elapsed) =>
      if !f.submitSuccess then
        UploadForm(RollbackAdvisory(f.upgradeConfirmAvailable), f.firmwareIsValid == Bool(false), f.preserveConfig)
      else if elapsed < TotalTime then Progress(TotalTime - elapsed)
      else Success(f.preserveConfig)
  }

  /** Mounting the page: the confirm branch starts unreverted; the form branch
      starts from the initial form and asks once whether rollback is available. */
  function Enter(suCounter: Value): (r: Step)
    ensures Truthy(suCounter) ==> r == Step(ConfirmPage(false), [])
    ensures !Truthy(suCounter) ==> r == Step(UpgradePage(InitialForm, 0), [Issue(CheckRollback)])
  {
    match SelectBranch(suCounter)
    case ConfirmBranch => Step(ConfirmPage(false), [])
    case FormBranch => Step(UpgradePage(InitialForm, 0), [Issue(CheckRollback)])
  }

  // ----- the upload form -----

  /** `tooglePreserveConfig`. */
  function TogglePreserve(f: Form): (g: Form)
    ensures g.preserveConfig != f.preserveConfig
    ensures g.(preserveConfig := f.preserveConfig) == f
  {
    f.(preserveConfig := !f.preserveConfig)
  }

  /** `_validateFirmware`: any rejection of the validation call becomes the
      string 'validation'. */
  function ValidateFirmware(reply: Outcome<Value>): (r: Outcome<Value>)
    ensures r.Ok? <==> reply.Ok?
    ensures r.Err? ==> r.fault == ValidationRejection
  {
    match reply
    case Ok(v) => Ok(v)
    case Err(_) => Err(ValidationRejection)
  }

  /** The calls of the upload chain and how the chain settles. */
  datatype Chain = Chain(calls: seq<Call>, outcome: Outcome<Value>)

  /** `uploadFile(...).then(_validateFirmware).then(() => upgradeFirmware(...,
      preserveConfig))`: each call is issued only once the previous one has
      resolved, and the trigger carries the flag given. */
  function UploadChain(file: Value, preserveConfig: bool, upload: Outcome<Value>,
                       validate: Outcome<Value>, trigger: Outcome<Value>): (r: Chain)
    ensures r.calls <= [Upload(file), Validate, Trigger(preserveConfig)]
    // the upload is always issued first
    ensures |r.calls| >= 1
    ensures |r.calls| >= 2 <==> upload.Ok?
    ensures |r.calls| == 3 <==> upload.Ok? && validate.Ok?
    ensures r.outcome.Ok? <==> upload.Ok? && validate.Ok? && trigger.Ok?
    ensures upload.Err? ==> r.outcome == upload
    ensures upload.Ok? && validate.Err? ==> r.outcome == Err(ValidationRejection)
    ensures upload.Ok? && validate.Ok? ==> r.outcome == trigger
  {
    match upload
    case Err(f) => Chain([Upload(file)], Err(f))
    case Ok(_) =>
      match ValidateFirmware(validate)
      case Err(f) => Chain([Upload(file), Validate], Err(f))
      case Ok(_) => Chain([Upload(file), Validate, Trigger(preserveConfig)], trigger)
  }

  function Issued(calls: seq<Call>): (es: seq<Effect>)
    ensures |es| == |calls|
    ensures forall i | 0 <= i < |calls| :: es[i] == Issue(calls[i])
  {
    if calls == [] then [] else [Issue(calls[0])] + Issued(calls[1..])
  }

  /** The result of one submission of the form. */
  datatype Submission = Submission(form: Form, effects: seq<Effect>)

  /** `onUpgrade` with `file` the first selected file (undefined when none is
      selected, in which case reading its name throws before any call). The
      catch matches the rejection reason by value: 'validation' marks the
      image invalid, anything else is rethrown and left unhandled. */
  function OnUpgrade(f: Form, file: Value, upload: Outcome<Value>,
                     validate: Outcome<Value>, trigger: Outcome<Value>): (r: Submission)
    // no file: a TypeError before anything is issued or changed
    ensures !Readable(file) ==> r == Submission(f, [Unhandled(TypeError)])
    // the page only ever learns that an image is invalid, never that it is valid
    ensures r.form.firmwareIsValid == f.firmwareIsValid || r.form.firmwareIsValid == Bool(false)
    ensures r.form.preserveConfig == f.preserveConfig
    ensures r.form.upgradeConfirmAvailable == f.upgradeConfirmAvailable
    ensures Readable(file) ==>
      && |r.effects| >= 1
      && r.effects[0] == Issue(Upload(file))
      && r.form.fileName == Prop(file, "filename")
    // success iff every step of the chain succeeded
    ensures r.form.submitSuccess <==> f.submitSuccess || (Readable(file) && upload.Ok? && validate.Ok? && trigger.Ok?)
    // a validation rejection marks the image invalid and triggers nothing
    ensures Readable(file) && upload.Ok? && validate.Err? ==>
      && r.form == f.(fileName := Prop(file, "filename"), firmwareIsValid := Bool(false))
      && r.effects == [Issue(Upload(file)), Issue(Validate)]
    // the trigger is issued after validation, with the flag of the form
    ensures Readable(file) && upload.Ok? && validate.Ok? ==>
      |r.effects| >= 3 && r.effects[..3] == [Issue(Upload(file)), Issue(Validate), Issue(Trigger(f.preserveConfig))]
    // the fully successful path: exactly the three calls, nothing raised, validity untouched
    ensures Readable(file) && upload.Ok? && validate.Ok? && trigger.Ok? ==>
      r == Submission(f.(fileName := Prop(file, "filename"), submitSuccess := true),
                      [Issue(Upload(file)), Issue(Validate), Issue(Trigger(f.preserveConfig))])
    // any other failure is rethrown and changes neither flag
    ensures Readable(file) && upload.Err? && upload.fault != ValidationRejection ==>
      && r.form == f.(fileName := Prop(file, "filename"))
      && r.effects == [Issue(Upload(file)), Unhandled(upload.fault)]
    ensures Readable(file) && upload.Ok? && validate.Ok? && trigger.Err? && trigger.fault != ValidationRejection ==>
      && r.form == f.(fileName := Prop(file, "filename"))
      && r.effects == [Issue(Upload(file)), Issue(Validate), Issue(Trigger(f.preserveConfig)), Unhandled(trigger.fault)]
  {
    match Get(file, "filename")
    case Err(fault) => Submission(f, [Unhandled(fault)])
    case Ok(name) =>
      var named := f.(fileName := name);
      var chain := UploadChain(file, f.preserveConfig, upload, validate, trigger);
      var issued := Issued(chain.calls);
      match chain.outcome
      case Ok(_) => Submission(named.(submitSuccess := true), issued)
      case Err(e) =>
        if e == ValidationRejection then Submission(named.(firmwareIsValid := Bool(false)), issued)
        else Submission(named, issued + [Unhandled(e)])
  }


  // ----- the transition system -----

  datatype Event =
    | RollbackChecked(reply: Outcome<Value>)
    | TogglePreserveConfig
    | SubmitUpgrade(file: Value, upload: Outcome<Value>, validate: Outcome<Value>, trigger: Outcome<Value>)
    | Tick
    | ConfirmPressed(reply: Outcome<Value>)
    | RevertPressed(reply: Outcome<Value>)

  /** One event. Events the current view cannot produce (a button that is not
      shown, a tick with no countdown running) leave the page as it is. */
  function Next(p: Page, e: Event): (r: Step)
    // the two branches of the page never turn into each other
    ensures p.ConfirmPage? <==> r.page.ConfirmPage?
    // the reverted notice is final and silent
    ensures p == ConfirmPage(true) ==> r == Step(p, [])
    // once the submission succeeded, nothing is issued and only the countdown
    // moves, apart from a rollback answer still arriving late
    ensures p.UpgradePage? && p.form.submitSuccess && !e.RollbackChecked? ==> r.page.form == p.form && r.effects == []
    // only a tick advances the countdown, and only after a successful submission
    ensures p.UpgradePage? && r.page.elapsed != p.elapsed ==> e.Tick? && p.form.submitSuccess && r.page.elapsed == p.elapsed + 1
    // the trigger always carries the box as it stands when the form is submitted
    ensures forall b :: Issue(Trigger(b)) in r.effects ==> p.UpgradePage? && b == p.form.preserveConfig
  {
    match p
    case ConfirmPage(reverted) =>
      if reverted then Step(p, [])
      else (
        match e
        case ConfirmPressed(reply) =>
          Step(p, [Issue(ConfirmUpgrade)] + if reply.Ok? then [Navigate("/")] else [Unhandled(reply.fault)])
        case RevertPressed(reply) =>
          if reply.Ok? then Step(ConfirmPage(true), [Issue(RevertUpgrade)])
          else Step(p, [Issue(RevertUpgrade), Unhandled(reply.fault)])
        case _ => Step(p, []))
    case UpgradePage(f, elapsed) =>
      match e
      case RollbackChecked(reply) =>
        if reply.Ok? then Step(UpgradePage(f.(upgradeConfirmAvailable := reply.value), elapsed), [])
        else Step(p, [Unhandled(reply.fault)])
      case TogglePreserveConfig =>
        if f.submitSuccess then Step(p, []) else Step(UpgradePage(TogglePreserve(f), elapsed), [])
      case SubmitUpgrade(file, upload, validate, trigger) =>
        if f.submitSuccess then Step(p, [])
        else
          var s := OnUpgrade(f, file, upload, validate, trigger);
          Step(UpgradePage(s.form, elapsed), s.effects)
      case Tick =>
        if f.submitSuccess then Step(UpgradePage(f, elapsed + 1), []) else Step(p, [])
      case _ => Step(p, [])
  }

  function Run(p: Page, events: seq<Event>): Page
    decreases |events|
  {
    if events == [] then p else Run(Next(p, events[0]).page, events[1..])
  }

  /** n ticks in a row. It recurses on the last tick rather than folding a
      sequence of `Tick` events through `Run`, so that the countdown lemma
      can induct on n directly; `TicksAreRun` ties the two together. */
  function Ticks(p: Page, n: nat): Page {
    if n == 0 then p else Next(Ticks(p, n - 1), Tick).page
  }

  /** `Run` over events `a` then `b` runs `b` from where `a` left off. */
  lemma {:induction false} RunAppend(p: Page, a: seq<Event>, b: seq<Event>)
    ensures Run(p, a + b) == Run(Run(p, a), b)
    decreases |a|
  {
    if a != [] {
      assert (a + b)[1..] == a[1..] + b;
      RunAppend(Next(p, a[0]).page, a[1..], b);
    } else {
      assert a + b == b;
    }
  }

  /** n ticks are the run of n `Tick` events. */
  lemma {:induction false} TicksAreRun(p: Page, n: nat)
    ensures Ticks(p, n) == Run(p, seq(n, _ => Tick))
  {
    if n > 0 {
      TicksAreRun(p, n - 1);
      var prefix := seq(n - 1, _ => Tick);
      assert seq(n, _ => Tick) == prefix + [Tick];
      RunAppend(p, prefix, [Tick]);
    }
  }

  // ----- properties -----

  /** What every reachable page satisfies: the countdown has not started
      before the submission succeeded, and an image is only ever flagged
      invalid, never valid. */
  predicate Inv(p: Page) {
    p.UpgradePage? ==>
      && (!p.form.submitSuccess ==> p.elapsed == 0)
      && (p.form.firmwareIsValid == Undefined || p.form.firmwareIsValid == Bool(false))
  }

  lemma EnterEstablishesInv(suCounter: Value)
    ensures Inv(Enter(suCounter).page)
  {
  }

  lemma NextPreservesInv(p: Page, e: Event)
    requires Inv(p)
    ensures Inv(Next(p, e).page)
  {
  }

  lemma {:induction false} RunPreservesInv(p: Page, events: seq<Event>)
    requires Inv(p)
    ensures Inv(Run(p, events))
    decreases |events|
  {
    if events != [] {
      NextPreservesInv(p, events[0]);
      RunPreservesInv(Next(p, events[0]).page, events[1..]);
    }
  }

  /** Once the countdown is mounted, n ticks later the page shows the
      progress view with 180 - n seconds left while n < 180, and the success
      view from n = 180 on. */
  lemma {:induction false} Countdown(f: Form, n: nat)
    requires f.submitSuccess
    ensures Ticks(UpgradePage(f, 0), n) == UpgradePage(f, n)
    ensures n < TotalTime ==> Render(Ticks(UpgradePage(f, 0), n)) == Progress(TotalTime - n)
    ensures n >= TotalTime ==> Render(Ticks(UpgradePage(f, 0), n)) == Success(f.preserveConfig)
  {
    if n > 0 {
      Countdown(f, n - 1);
    }
  }

  /** While the progress view shows, the time left is positive and each tick
      takes exactly one second off it; the success view, once shown, stays. */
  lemma TickAdvancesProgress(p: Page)
    ensures Render(p).Progress? ==> Render(p).remaining > 0
    ensures Render(p).Progress? && Render(p).remaining > 1 ==>
      Render(Next(p, Tick).page) == Progress(Render(p).remaining - 1)
    ensures Render(p).Progress? && Render(p).remaining == 1 ==>
      Render(Next(p, Tick).page).Success?
    ensures Render(p).Success? ==> Render(Next(p, Tick).page) == Render(p)
  {
  }

  /** A successful submission shows the countdown at its full length at once. */
  lemma SubmitShowsProgress(f: Form, elapsed: nat, file: Value, upload: Outcome<Value>,
                            validate: Outcome<Value>, trigger: Outcome<Value>)
    requires Inv(UpgradePage(f, elapsed)) && !f.submitSuccess
    requires Readable(file) && upload.Ok? && validate.Ok? && trigger.Ok?
    ensures Render(Next(UpgradePage(f, elapsed), SubmitUpgrade(file, upload, validate, trigger)).page) == Progress(TotalTime)
  {
  }

  /** Toggling the preserve-config box twice gives back the same page. */
  lemma ToggleTwice(p: Page)
    ensures Next(Next(p, TogglePreserveConfig).page, TogglePreserveConfig).page == p
  {
  }

  /** On the form, toggling the box flips what the box shows and issues nothing. */
  lemma ToggleOnFormFlips(f: Form, elapsed: nat)
    requires !f.submitSuccess
    ensures Next(UpgradePage(f, elapsed), TogglePreserveConfig).effects == []
    ensures Render(Next(UpgradePage(f, elapsed), TogglePreserveConfig).page) ==
      UploadForm(RollbackAdvisory(f.upgradeConfirmAvailable), f.firmwareIsValid == Bool(false), !f.preserveConfig)
  {
  }

  /** The rollback check's answer is stored as is and decides the advisory the
      form shows; a failed check is left unhandled and changes nothing. */
  lemma RollbackCheckSetsAdvisory(f: Form, elapsed: nat, reply: Outcome<Value>)
    ensures reply.Ok? ==>
      && Next(UpgradePage(f, elapsed), RollbackChecked(reply)) ==
         Step(UpgradePage(f.(upgradeConfirmAvailable := reply.value), elapsed), [])
      && (!f.submitSuccess ==>
            Render(Next(UpgradePage(f, elapsed), RollbackChecked(reply)).page).advisory == RollbackAdvisory(reply.value))
    ensures reply.Err? ==>
      Next(UpgradePage(f, elapsed), RollbackChecked(reply)) == Step(UpgradePage(f, elapsed), [Unhandled(reply.fault)])
  {
  }

  /** A rejected validation shows the invalid-image note under the form and
      issues no trigger. */
  lemma RejectedValidationShowsInvalidImage(f: Form, elapsed: nat, file: Value, upload: Outcome<Value>,
                                            validate: Outcome<Value>, trigger: Outcome<Value>)
    requires !f.submitSuccess && Readable(file) && upload.Ok? && validate.Err?
    ensures var s := Next(UpgradePage(f, elapsed), SubmitUpgrade(file, upload, validate, trigger));
      && Render(s.page) == UploadForm(RollbackAdvisory(f.upgradeConfirmAvailable), true, f.preserveConfig)
      && s.effects == [Issue(Upload(file)), Issue(Validate)]
  {
  }

  /** A submission without a file, or whose upload or trigger fails with
      anything but 'validation', leaves the form as it is shown and surfaces
      the failure unhandled. */
  lemma OtherFailureIsRethrown(f: Form, elapsed: nat, file: Value, upload: Outcome<Value>,
                               validate: Outcome<Value>, trigger: Outcome<Value>)
    requires !f.submitSuccess
    ensures !Readable(file) ==>
      Next(UpgradePage(f, elapsed), SubmitUpgrade(file, upload, validate, trigger)) ==
      Step(UpgradePage(f, elapsed), [Unhandled(TypeError)])
    ensures Readable(file) && upload.Err? && upload.fault != ValidationRejection ==>
      var s := Next(UpgradePage(f, elapsed), SubmitUpgrade(file, upload, validate, trigger));
      && Render(s.page) == Render(UpgradePage(f, elapsed))
      && s.effects == [Issue(Upload(file)), Unhandled(upload.fault)]
    ensures Readable(file) && upload.Ok? && validate.Ok? && trigger.Err? && trigger.fault != ValidationRejection ==>
      var s := Next(UpgradePage(f, elapsed), SubmitUpgrade(file, upload, validate, trigger));
      && Render(s.page) == Render(UpgradePage(f, elapsed))
      && s.effects == [Issue(Upload(file)), Issue(Validate), Issue(Trigger(f.preserveConfig)), Unhandled(trigger.fault)]
  {
  }

  /** A revert, once it succeeded, is never undone: nothing takes the page
      out of the reverted view. */
  lemma {:induction false} RevertLatches(events: seq<Event>)
    ensures Run(ConfirmPage(true), events) == ConfirmPage(true)
    decreases |events|
  {
    if events != [] {
      RevertLatches(events[1..]);
    }
  }

  /** An image flagged invalid stays flagged across any later events. */
  lemma {:induction false} InvalidImageLatches(f: Form, elapsed: nat, events: seq<Event>)
    requires f.firmwareIsValid == Bool(false)
    ensures Run(UpgradePage(f, elapsed), events).UpgradePage?
    ensures Run(UpgradePage(f, elapsed), events).form.firmwareIsValid == Bool(false)
    decreases |events|
  {
    if events != [] {
      var next := Next(UpgradePage(f, elapsed), events[0]).page;
      assert next.UpgradePage? && next.form.firmwareIsValid == Bool(false);
      InvalidImageLatches(next.form, next.elapsed, events[1..]);
    }
  }

  /** Confirming navigates to the root once the device accepted; reverting
      shows the reverted notice once the device accepted. */
  lemma ConfirmOrRevert(confirm: Outcome<Value>, revert: Outcome<Value>)
    ensures Navigate("/") in Next(ConfirmPage(false), ConfirmPressed(confirm)).effects <==> confirm.Ok?
    ensures Next(ConfirmPage(false), ConfirmPressed(confirm)).page == ConfirmPage(false)
    ensures Render(Next(ConfirmPage(false), RevertPressed(revert)).page) == RevertedNotice <==> revert.Ok?
  {
  }

  /** An upload (or trigger) rejection that happens to be the string
      'validation' is taken for a validation failure: the image is flagged
      invalid although the validation call was never issued. */
  lemma UploadRejectedWithValidationText(f: Form, file: Value, upload: Outcome<Value>,
                                         validate: Outcome<Value>, trigger: Outcome<Value>)
    requires Readable(file)
    // an upload rejected with 'validation': validation is never issued
    ensures var r := OnUpgrade(f, file, Err(ValidationRejection), validate, trigger);
      && r.form.firmwareIsValid == Bool(false)
      && Issue(Validate) !in r.effects
    // a trigger rejected with 'validation' after a successful validation
    ensures upload.Ok? && validate.Ok? ==>
      var r := OnUpgrade(f, file, upload, validate, Err(ValidationRejection));
      && r.form.firmwareIsValid == Bool(false)
      && r.form.submitSuccess == f.submitSuccess
      && r.effects == [Issue(Upload(file)), Issue(Validate), Issue(Trigger(f.preserveConfig))]
  {
  }

  // ----- the page against the application state -----

  /** Stopping the safe-upgrade counter stores -1, which is truthy: a page
      mounted afterwards still offers confirm/revert. */
  lemma StoppedCounterStillConfirms(s: AppContext.AppState)
    ensures Enter(AppContext.StopSuCounter(s).suCounter).page == ConfirmPage(false)
  {
  }

  /** A bootstrap whose upgrade info reports a nonzero number of seconds left,
      as decimal text, mounts the confirm/revert choice, and a revert the
      device accepts then shows the reverted notice. */
  lemma PendingSafeUpgradeAfterBoot(sid0: Value, login: Outcome<Value>, board: Outcome<Value>,
                                    settings: Outcome<Value>, fbw: Outcome<Value>, upgrade: Outcome<Value>,
                                    n: int, revert: Outcome<Value>)
    requires AppContext.LoginAccepted(login) && AppContext.FetchesUsable(board, fbw, upgrade)
    requires Prop(upgrade.value, "safe_upgrade_confirm_remaining_s") == Str(FormatInt(n))
    requires n != 0 && revert.Ok?
    ensures var s := AppContext.ComponentDidMount(AppContext.Initial(sid0), login, board, settings, fbw, upgrade);
      && Enter(s.suCounter).page == ConfirmPage(false)
      && Render(Next(Enter(s.suCounter).page, RevertPressed(revert)).page) == RevertedNotice
  {
    AppContext.SuCounterFromDecimalText(AppContext.Initial(sid0), login, board, settings, fbw, upgrade, n);
  }

  /** Without a bootstrap the counter is null and the upload form is mounted. */
  lemma FormBeforeBoot(sid0: Value)
    ensures Enter(AppContext.Initial(sid0).suCounter) == Step(UpgradePage(InitialForm, 0), [Issue(CheckRollback)])
    ensures Render(Enter(AppContext.Initial(sid0).suCounter).page) == UploadForm(NoAdvisory, false, false)
  {
  }
}

=== FILE: js.dfy ===
/** The fragment of JavaScript semantics the modelled code relies on: values as
    the code observes them, truthiness, property reads, object spread and the
    `Number()` conversion of decimal text. */
module Js {

  /** A JavaScript value. Numbers are integers or NaN; arrays, functions and
      prototypes do not occur in the modelled code. */
  datatype Value =
    | Undefined
    | Null
    | Bool(b: bool)
    | Num(n: int)
    | NaN
    | Str(s: string)
    | Obj(fields: map<string, Value>)

  /** What a rejected promise or a `throw` carries: a value, or the
      TypeError raised by reading a property of null or undefined. */
  datatype Fault = Thrown(value: Value) | TypeError

  /** The settled outcome of an asynchronous step (or of a throwing
      expression): resolved with a value, or rejected with a fault. */
  datatype Outcome<+T> = Ok(value: T) | Err(fault: Fault) {

    predicate IsFailure() {
      Err?
    }

    function PropagateFailure<U>(): Outcome<U>
      requires Err?
    {
      Err(fault)
    }

    function Extract(): T
      requires Ok?
    {
      value
    }
  }

  /** JavaScript truthiness: false, 0, NaN, "", null and undefined are falsy. */
  predicate Truthy(v: Value) {
    match v
    case Undefined => false
    case Null => false
    case Bool(b) => b
    case Num(n) => n != 0
    case NaN => false
    case Str(s) => s != ""
    case Obj(_) => true
  }

  /** A value whose properties can be read without a TypeError. */
  predicate Readable(v: Value) {
    !v.Undefined? && !v.Null?
  }

  /** The property read `v.key`. Reading from null or undefined throws; an
      object yields its own field or undefined; the other primitives carry
      none of the property names this code reads. */
  function Get(v: Value, key: string): Outcome<Value> {
    match v
    case Undefined => Err(TypeError)
    case Null => Err(TypeError)
    case Obj(fields) => Ok(if key in fields then fields[key] else Undefined)
    case _ => Ok(Undefined)
  }

  /** The value `v.key` yields when `v` is readable. */
  function Prop(v: Value, key: string): Value {
    if v.Obj? && key in v.fields then v.fields[key] else Undefined
  }

  /** Reading a property of a readable value never throws and yields `Prop`. */
  lemma GetProp(v: Value, key: string)
    requires Readable(v)
    ensures Get(v, key) == Ok(Prop(v, key))
  {
  }

  /** The own enumerable properties that `{...v}` copies. */
  function Spread(v: Value): map<string, Value> {
    if v.Obj? then v.fields else map[]
  }

  // ----- Number() of decimal text -----

  predicate IsDigit(c: char) {
    '0' <= c <= '9'
  }

  predicate AllDigits(s: string) {
    forall i | 0 <= i < |s| :: IsDigit(s[i])
  }

  function DigitValue(c: char): nat
    requires IsDigit(c)
  {
    c as int - '0' as int
  }

  function Digit(d: nat): (c: char)
    requires d < 10
    ensures IsDigit(c) && DigitValue(c) == d
  {
    ('0' as int + d) as char
  }

  /** The number a string of decimal digits denotes, most significant first. */
  function DigitsValue(s: string): nat
    requires AllDigits(s)
  {
    if s == [] then 0 else DigitsValue(s[..|s| - 1]) * 10 + DigitValue(s[|s| - 1])
  }

  /** The shortest decimal text of a natural number. */
  function FormatNat(n: nat): (s: string)
    ensures |s| > 0 && AllDigits(s)
    decreases n
  {
    if n < 10 then [Digit(n)] else FormatNat(n / 10) + [Digit(n % 10)]
  }

  /** The decimal text of an integer, with a leading '-' when negative. */
  function FormatInt(n: int): string {
    if n < 0 then "-" + FormatNat(-n) else FormatNat(n)
  }

  /** `Number(s)` for a string: the empty string is 0, an optionally signed
      run of decimal digits is its value, anything else is NaN. */
  function ParseNumber(s: string): (r: Value)
    ensures r.Num? || r.NaN?
  {
    if s == "" then Num(0)
    else if (s[0] == '-' || s[0] == '+') && |s| > 1 && AllDigits(s[1..]) then
      Num(if s[0] == '-' then 0 - DigitsValue(s[1..]) else DigitsValue(s[1..]))
    else if AllDigits(s) then Num(DigitsValue(s))
    else NaN
  }

  /** `Number(v)`: null and false are 0, true is 1, undefined and objects are
      NaN, strings are parsed. The result is always a number. */
  function ToNumber(v: Value): (r: Value)
    ensures r.Num? || r.NaN?
    ensures v.Num? ==> r == v
    ensures v.Undefined? || v.Obj? ==> r == NaN
  {
    match v
    case Undefined => NaN
    case Null => Num(0)
    case Bool(b) => Num(if b then 1 else 0)
    case Num(n) => v
    case NaN => NaN
    case Str(s) => ParseNumber(s)
    case Obj(_) => NaN
  }

  lemma {:induction false} DigitsValueOfFormatNat(n: nat)
    ensures DigitsValue(FormatNat(n)) == n
    decreases n
  {
    if n >= 10 {
      var prefix := FormatNat(n / 10);
      var s := prefix + [Digit(n % 10)];
      assert s[..|s| - 1] == prefix;
      DigitsValueOfFormatNat(n / 10);
    }
  }

  /** Decimal text round-trips through `Number()`: a device that reports an
      integer as text yields that integer. */
  lemma NumberOfDecimalText(n: int)
    ensures ToNumber(Str(FormatInt(n))) == Num(n)
  {
    if n < 0 {
      var digits := FormatNat(-n);
      DigitsValueOfFormatNat(-n);
      assert ("-" + digits)[1..] == digits;
    } else {
      var digits := FormatNat(n);
      DigitsValueOfFormatNat(n);
      assert IsDigit(digits[0]);
    }
  }
}

=== FILE: notes_api.dfy ===
/** The notes plugin's API: reading the node's notes, with a guard that
    rejects a reply without a `notes` field, and writing them. */
module NotesApi {
  import opened Js
  import opened Rpc

  /** What `getNotes` throws when the reply has no notes. */
  const MissingNotes: Fault := Thrown(Obj(map["error" := Bool(true)]))

  /** The reply carries notes: `typeof x.notes !== 'undefined'`. */
  predicate HasNotes(reply: Value) {
    reply.Obj? && "notes" in reply.fields && !reply.fields["notes"].Undefined?
  }

  /** A call: the request issued and how it settles. */
  datatype NotesCall = NotesCall(request: Request, result: Outcome<Value>)

  /** `getNotes(api, sid)` against the transport's `reply`. A reply with notes
      passes through untouched, one without is turned into `{error: true}`,
      and a null or undefined reply fails on the property read. */
  function GetNotes(sid: Value, reply: Outcome<Value>): (r: NotesCall)
    ensures r.request == Request(Explicit(sid), "lime-utils", "get_notes", Obj(map[]))
    ensures r.result.Ok? <==> reply.Ok? && HasNotes(reply.value)
    ensures r.result.Ok? ==> r.result == reply
    ensures r.result == Err(MissingNotes) <==>
      (reply.Ok? && Readable(reply.value) && !HasNotes(reply.value)) || reply == Err(MissingNotes)
    ensures reply.Err? ==> r.result == reply
    ensures reply.Ok? && !Readable(reply.value) ==> r.result == Err(TypeError)
  {
    var request := Request(Explicit(sid), "lime-utils", "get_notes", Obj(map[]));
    match reply
    case Err(f) => NotesCall(request, Err(f))
    case Ok(x) =>
      match Get(x, "notes")
      case Err(f) => NotesCall(request, Err(f))
      case Ok(notes) =>
        if notes.Undefined? then NotesCall(request, Err(MissingNotes))
        else NotesCall(request, Ok(x))
  }

  /** `setNotes(api, sid, notes)`: the notes go out unmodified as the call's
      parameters and the reply comes back as it is. */
  function SetNotes(sid: Value, notes: Value, reply: Outcome<Value>): (r: NotesCall)
    ensures r.request.session == Explicit(sid)
    ensures r.request.service == "lime-utils" && r.request.procedure == "set_notes"
    ensures r.request.params == notes
    ensures r.result == reply
  {
    NotesCall(Request(Explicit(sid), "lime-utils", "set_notes", notes), reply)
  }
}

=== FILE: rpc.dfy ===
/** The calls the modelled code hands to the ubus RPC transport. The
    transport itself is an external collaborator: each call is recorded as a
    request, and its reply is an outcome supplied from outside. */
module Rpc {
  import opened Js

  /** Which session id a call carries: one passed explicitly, or the id the
      shared service holds when the call is issued. */
  datatype SessionArg = Explicit(sid: Value) | Current

  datatype Request = Request(session: SessionArg, service: string, procedure: string, params: Value)
}
